=== FILE: README.md ===
# Factories: collection endpoint and factory form

A Dafny model of the validation core of a small factory manager. A
*factory* is a named record with a numeric range `[lower_bound, upper_bound]`
and a `children_count`. Two validators guard the creation of one:

- the collection endpoint `/api/factories`. `GET` lists every factory with
  its children in ascending id order. `POST` checks a loosely typed JSON body
  and inserts one factory row only when the check passes;
- the client-side factory form. `handleIntChange` normalises numeric inputs.
  `handleSubmit` runs an ordered chain of three checks and hands a payload
  with the trimmed name to `onSubmit`.

Modules, one file each:

| file | module | models |
|---|---|---|
| `wrappers.dfy` | `Wrappers` | `Option` and `Result` |
| `jsstring.dfy` | `JsString` | `String.prototype.trim` and the UTF-16 `length` of a string |
| `jsnumber.dfy` | `JsNumber` | `Number.isInteger` and `Math.floor` on finite numbers |
| `factory_types.dfy` | `FactoryTypes` | the `Factory` and child records of `src/types/factory.ts` |
| `factory_store.dfy` | `FactoryStore` | the database as the endpoint sees it: one insert and the ordered list query |
| `factories_route.dfy` | `FactoriesRoute` | `GET` and `POST` of `src/app/api/factories/route.ts` |
| `factory_form.dfy` | `FactoryForm` | the state, input normalisation and submit chain of `FactoryForm.tsx` |
| `new_factory_flow.dfy` | `NewFactoryFlow` | the new-factory page sending the form's payload to `POST` |

Conventions:
- A JSON or JavaScript number is a `real`, and every value is assumed
  finite: `NaN` and infinities (which an overflowing literal such as `1e400`
  produces, in a JSON body or a number input) are not modelled.
- A `char` is a Unicode scalar value. `Utf16Length` recovers JavaScript's
  `length`, where each character above U+FFFF counts as two code units.
- The store is an immutable value. An operation returns the new store
  together with the HTTP response.

Where the endpoint's code and the program's other statements of intent
differ, the model follows the code:
- The form trims the name before checking it (`FactoryForm.tsx:70`).
  `POST` does not trim, so a name of only spaces is accepted
  (`BlankNameAndEqualBoundsAccepted`).
- The form requires integer bounds (`FactoryForm.tsx:74`), and its inputs
  advertise the range 0..1,000,000 (`FactoryForm.tsx:117-120`). `POST`
  checks neither (`FractionalBoundsAccepted`), and `handleSubmit` does not
  check the range (`RangeNotEnforced`). In the form, only the browser's
  own input constraints could stop out-of-range bounds. At the endpoint,
  only a failing insert (`writeFails`) could refuse fractional ones.
- The endpoint test expects a created factory to come back with
  `children_count` children, and expects `children_count` 20 or -2 to be
  refused with 400 (`test/factories.test.ts:51-112`). `POST` never reads
  `children_count` (`ChildrenCountIgnored`) and creates no child
  (`PostThenGet`).
- A body that is not JSON, or is JSON `null`, makes `req.json()` or the
  destructuring throw, so it gets an unhandled 500 rather than 400. It is
  not treated as an empty object.

## Model

| member | source | states |
|---|---|---|
| `FactoriesRoute.Post` | src/app/api/factories/route.ts:14-33 | 201 exactly when the body parses, passes the check and the insert succeeds. A malformed or `null` body gets an unhandled 500. A parsed body that fails the check gets 400 `{error: 'Invalid input.'}`. A valid body whose insert fails gets an unhandled 500. Every non-201 response leaves the store unchanged. A 201 appends exactly one row with the given name and bounds, the schema default `children_count`, `now` as both timestamps and a fresh id, leaves children untouched, and returns that row. The default for `children_count` never changes. The store invariant is preserved |
| `FactoriesRoute.Get` | src/app/api/factories/route.ts:5-11 | status 200. The list is a permutation of the stored rows, in strictly ascending id order whenever the stored ids are unique. Each factory carries exactly the children whose foreign key is its id |
| `FactoriesRoute.ReadCreateFrame` | src/app/api/factories/route.ts:15 | destructuring reads only `name`, `lower_bound` and `upper_bound`: setting any other property of the body leaves what `ReadCreate` returns unchanged |
| `FactoriesRoute.ValidCreate` | src/app/api/factories/route.ts:18-24 | holds exactly when the rejecting disjunction is false: a string name of raw UTF-16 length 1..100, two numbers, lower <= upper. There is no trimming and no integrality check |
| `FactoriesRoute.ChildrenCountIgnored` | src/app/api/factories/route.ts:15 | changing or adding `children_count` in the body never changes the outcome of `POST` |
| `FactoriesRoute.OnlyThreeFieldsMatter` | src/app/api/factories/route.ts:15-24 | two bodies that agree on `name`, `lower_bound` and `upper_bound` have the same outcome |
| `FactoriesRoute.BlankNameAndEqualBoundsAccepted` | src/app/api/factories/route.ts:19-24 | a whitespace-only name of length 3 passes (no trimming), and `lower_bound == upper_bound` passes |
| `FactoriesRoute.FractionalBoundsAccepted` | src/app/api/factories/route.ts:19-24 | any ordered pair of numbers passes with any 1..100-character name inside the Basic Multilingual Plane, and so does the same pair shifted by one half, since integrality is not checked |
| `FactoriesRoute.AstralNameOverLimit` | src/app/api/factories/route.ts:20-21 | a name of 51 to 100 characters, all above U+FFFF, is at most 100 characters long yet over 100 UTF-16 units, and is rejected |
| `FactoriesRoute.PostThenGet` | src/app/api/factories/route.ts:6-32 | a valid body whose insert succeeds gets 201, and the following `GET` lists one more factory. The last one listed is the row `POST` returned, because its id is the largest, and it has no children |
| `FactoryStore.Create` | src/app/api/factories/route.ts:29-31 | the insert appends one row with the supplied name and bounds, the schema default for `children_count`, and an id not used before. The default itself is unchanged. It keeps the store invariant (unique ids below the sequence value, no orphan children) |
| `FactoryStore.SortById` | src/app/api/factories/route.ts:8 | the result is a permutation (same multiset) of the rows |
| `FactoryStore.InsertById` | src/app/api/factories/route.ts:8 | inserting adds exactly the one row to the multiset |
| `FactoryStore.InsertByIdAscending` | src/app/api/factories/route.ts:8 | inserting a row with a fresh id into an ascending list keeps it strictly ascending |
| `FactoryStore.SortByIdAscending` | src/app/api/factories/route.ts:8 | with unique ids, sorting yields strictly ascending ids |
| `FactoryStore.ChildrenOf` | src/app/api/factories/route.ts:7 | a child is included exactly when it is stored and references the factory, and as many times as it is stored: once per stored row |
| `JsString.Utf16Length` | src/app/api/factories/route.ts:20-21 | a string's JavaScript length lies between its character count and twice that |
| `JsString.Utf16LengthBmp` | src/app/api/factories/route.ts:20-21 | inside the Basic Multilingual Plane the length is the character count |
| `JsString.Utf16LengthAstral` | src/app/api/factories/route.ts:20-21 | above the Basic Multilingual Plane every character counts twice |
| `JsString.StartFrom` | src/app/components/FactoryForm.tsx:70 | the scan from the front returns the first index holding no whitespace, or the length. Everything it skips is whitespace |
| `JsString.EndFrom` | src/app/components/FactoryForm.tsx:70 | the scan from the back, not passing `lo`, returns one past the last non-whitespace index, or `lo`. Everything it skips is whitespace |
| `JsString.Trim` | src/app/components/FactoryForm.tsx:70 | the result is empty exactly when the string is all whitespace. Otherwise it starts and ends with non-whitespace |
| `JsString.TrimRange` | src/app/components/FactoryForm.tsx:84 | the loops an engine runs for `trim` find the slice `s[lo..hi]` equal to `Trim(s)`, with only whitespace outside it |
| `JsString.TrimIdempotent` | src/app/components/FactoryForm.tsx:84 | trimming the trimmed name again changes nothing |
| `JsNumber.Floor` | src/app/components/FactoryForm.tsx:59 | `Math.floor` yields the integer `r` with `r <= x < r + 1` |
| `JsNumber.IsInteger` | src/app/components/FactoryForm.tsx:74 | `Number.isInteger` on a finite number, used here and for the count at line 64: the number equals its floor |
| `JsNumber.IsIntegerIff` | src/app/components/FactoryForm.tsx:64 | `Number.isInteger(x)` holds exactly when some integer denotes `x` |
| `FactoryForm.Init` | src/app/components/FactoryForm.tsx:45-49 | the form starts without an error. The name is the given one or empty (`||` only maps the empty string to itself). Each given number is kept, and each missing number becomes 0 on its own |
| `FactoryForm.InitRestoresState` | src/app/components/FactoryForm.tsx:45-49 | opening the form with a state's own name and numbers gives back that state, with no error |
| `FactoryForm.HandleIntChange` | src/app/components/FactoryForm.tsx:52-61 | an empty input stores 0. Otherwise the stored number is an integer `n` with `n <= value < n + 1` |
| `FactoryForm.HandleIntChangeFixesIntegers` | src/app/components/FactoryForm.tsx:59 | an integer is stored unchanged, normalising twice equals normalising once, and -3.5 becomes -4 (floor, not truncation) |
| `FactoryForm.ChildrenCountValid` | src/app/components/FactoryForm.tsx:63-64 | the count is valid exactly when it is one of the integers 0 through 15 |
| `FactoryForm.Validate` | src/app/components/FactoryForm.tsx:70-88 | success exactly when all three checks pass. A failure names a check that fails, and every earlier check passed, so name beats bounds beats count. On success the payload has the trimmed name and the numbers unchanged. A blank name fails by the whitespace test, which does not depend on `Trim` |
| `FactoryForm.ValidatedPayloadWellFormed` | src/app/components/FactoryForm.tsx:83-88 | an emitted payload has a non-empty name with no surrounding whitespace, ordered integer bounds and a count in 0..15 |
| `FactoryForm.Message` | src/app/components/FactoryForm.tsx:71-79 | the message each check reports, as the literal strings the form sets |
| `FactoryForm.MessagesDistinct` | src/app/components/FactoryForm.tsx:71-79 | the three checks report three different messages |
| `FactoryForm.HandleSubmit` | src/app/components/FactoryForm.tsx:66-89 | only the error field changes. It is cleared on success and set to the first failing check's message otherwise. `onSubmit`, when given, receives the validated payload exactly on success, so either an error is shown or a payload is sent, never both |
| `FactoryForm.PreviousErrorIrrelevant` | src/app/components/FactoryForm.tsx:68 | an error left by an earlier submit has no influence on the next submit |
| `FactoryForm.EmptyFormNeedsName` | src/app/components/FactoryForm.tsx:45-49 | a form opened without initial values is refused with `NameRequired` |
| `FactoryForm.RangeNotEnforced` | src/app/components/FactoryForm.tsx:74-77 | whatever ordered integer bounds replace a form's bounds, a form whose name and count pass is accepted, so the 0..1,000,000 range its inputs advertise at lines 117-120 is not checked |
| `NewFactoryFlow.FormPayloadAccepted` | src/app/factories/new/page.tsx:22-26 | a payload the form accepts passes the endpoint's check exactly when the trimmed name is at most 100 UTF-16 units long |
| `NewFactoryFlow.FormThenPost` | src/app/factories/new/page.tsx:22-26 | a form submit followed by a successful `POST` stores the trimmed name and the bounds as typed |
| `NewFactoryFlow.BlankNameOnlyCaughtByForm` | src/app/components/FactoryForm.tsx:70-73 | the form refuses a name of only spaces that the endpoint alone would accept |

## Left out

- `GET`/`PATCH`/`DELETE` on `/api/factories/[id]`, the `/generate` endpoint and random child generation: these live in other handlers. They are not part of this model.
- The change-notification server (`socket-server.js`): network fan-out only.
- Page rendering, tables, menus, navigation and `fetch`. The `loading` and `hideChildrenCount` props only affect rendering. `handleSubmit` checks the children count even when its field is hidden.
- The database itself. It is the immutable `Store` value. Whether an insert fails (for instance a non-integer bound in an integer column, or a connection error) is the `writeFails` parameter, because the schema is not part of this model. A failing `GET` query is not modelled.
- The prisma seed script and the jest configuration files.
- Timestamps are the `now` parameter. Child order within a factory is store order, because the list query does not order children.
- Concurrent requests: each operation is a single step on one store value.
- `Number(string)` parsing, IEEE rounding, `NaN` and infinities: numbers are exact finite reals. Numbers too large for a double are not modelled.
- Unicode normalisation: characters are compared as code points.
- The browser's own checks of `required`, `min`, `max` and `step` on the inputs (`FactoryForm.tsx:101-150`), which can block the submit before `handleSubmit` runs, are not modelled. The model starts at `handleSubmit`.
- Strings with unpaired surrogates, such as the JSON name `"\ud800"`: a `char` is a Unicode scalar value, so such names are not modelled. JavaScript accepts them and counts each lone surrogate as one unit of `length`.
- The endpoint test's expectations that `POST` returns children and rejects `children_count` 20 or -2 (`test/factories.test.ts:51-112`): the handler does neither, so they are not in `Post`'s contract.

=== FILE: factories_route.dfy ===
/**
 * The collection endpoint `/api/factories`: `GET` lists every factory with
 * its children ordered by id, `POST` validates a loosely typed JSON body
 * and, only if it passes, inserts one factory row.
 */
module FactoriesRoute {
  import opened Wrappers
  import opened JsString
  import opened JsNumber
  import opened FactoryTypes
  import opened FactoryStore

  /**
   * A JSON property as `typeof` classifies it: a string, a number, or
   * anything else (boolean, null, object, array, or a missing property).
   */
  datatype Value = Str(s: string) | Num(n: real) | Other

  /**
   * A request body after `req.json()`. `Malformed` stands for a body that
   * does not parse, or that parses to `null`, which destructuring rejects;
   * both throw before validation. Any other JSON value destructures to its
   * properties (none, for a primitive).
   */
  datatype Body = Malformed | Parsed(fields: map<string, Value>)

  /** The properties of the body the handler destructures. */
  datatype CreateFields = CreateFields(name: Value, lowerBound: Value, upperBound: Value)

  datatype ResponseBody =
    | ErrorBody(error: string)
    | FactoryBody(factory: Factory)
    | FactoryList(factories: seq<Factory>)
    | Unhandled   // the framework's page for an exception the handler did not catch

  datatype Response = Response(status: nat, body: ResponseBody)

  /** The new store together with the response sent. */
  datatype Outcome = Outcome(store: Store, response: Response)

  const InvalidInput := Response(400, ErrorBody("Invalid input."))
  const ServerError := Response(500, Unhandled)

  /** Property access on the parsed body; a missing property reads as `undefined`. */
  function Field(m: map<string, Value>, key: string): Value {
    if key in m then m[key] else Other
  }

  /** The three properties the handler destructures from the parsed body; a missing one reads as `undefined`. */
  function ReadCreate(m: map<string, Value>): CreateFields {
    CreateFields(Field(m, "name"), Field(m, "lower_bound"), Field(m, "upper_bound"))
  }

  /**
   * The negation of the handler's single rejecting disjunction: a string
   * name whose `length` is 1..100 (no trimming), two numbers, and a lower
   * bound not above the upper one. Integrality and range are not checked.
   */
  predicate ValidCreate(f: CreateFields) {
    && f.name.Str?
    && 1 <= Utf16Length(f.name.s) <= 100
    && f.lowerBound.Num?
    && f.upperBound.Num?
    && f.lowerBound.n <= f.upperBound.n
  }

  /**
   * `GET /api/factories`: every stored factory exactly once, with its
   * children, in strictly ascending id order.
   */
  function Get(st: Store): (r: Response)
    ensures r.status == 200 && r.body.FactoryList?
    ensures multiset(RowsOf(r.body.factories)) == multiset(st.rows)
    ensures DistinctIds(st.rows) ==> Ascending(RowsOf(r.body.factories))
    ensures forall f | f in r.body.factories :: f.children == Some(ChildrenOf(st.children, f.row.id))
  {
    var sorted := SortById(st.rows);
    assert DistinctIds(st.rows) ==> Ascending(sorted) by {
      if DistinctIds(st.rows) {
        SortByIdAscending(st.rows);
      }
    }
    var fs := seq(|sorted|, i requires 0 <= i < |sorted| =>
      Factory(sorted[i], Some(ChildrenOf(st.children, sorted[i].id))));
    assert RowsOf(fs) == sorted;
    Response(200, FactoryList(fs))
  }

  /**
   * `POST /api/factories`. `writeFails` is the store's verdict on the
   * insert (it refuses, for instance, a non-integer bound for an integer
   * column); the handler does not catch that error.
   *
   * Validation precedes the only write: every response other than 201
   * leaves the store as it was, and a 201 appends exactly one row carrying
   * the submitted name and bounds.
   */
  function Post(st: Store, body: Body, now: Timestamp, writeFails: bool): (r: Outcome)
    ensures r.response.status == 201 <==> body.Parsed? && ValidCreate(ReadCreate(body.fields)) && !writeFails
    ensures body.Malformed? ==> r.response == ServerError
    ensures body.Parsed? && !ValidCreate(ReadCreate(body.fields)) ==> r.response == InvalidInput
    ensures body.Parsed? && ValidCreate(ReadCreate(body.fields)) && writeFails ==> r.response == ServerError
    ensures r.response.status != 201 ==> r.store == st
    ensures r.response.status == 201 ==> |r.store.rows| == |st.rows| + 1
    ensures r.response.status == 201 ==>
      var f := ReadCreate(body.fields);
      var row := r.store.rows[|st.rows|];
      && r.store.rows == st.rows + [row]
      && r.store.children == st.children
      && row.name == f.name.s && row.lowerBound == f.lowerBound.n && row.upperBound == f.upperBound.n
      && row.childrenCount == st.defaultChildrenCount && row.createdAt == now && row.updatedAt == now
      && r.response.body == FactoryBody(Factory(row, None))
      && (Wf(st) ==> row.id !in Ids(st.rows))
    ensures r.store.defaultChildrenCount == st.defaultChildrenCount
    ensures Wf(st) ==> Wf(r.store)
  {
    match body
    case Malformed => Outcome(st, ServerError)
    case Parsed(m) =>
      var f := ReadCreate(m);
      if !ValidCreate(f) then Outcome(st, InvalidInput)
      else if writeFails then Outcome(st, ServerError)
      else
        var (next, row) := Create(st, f.name.s, f.lowerBound.n, f.upperBound.n, now);
        Outcome(next, Response(201, FactoryBody(Factory(row, None))))
  }

  /** Setting any property other than the three destructured ones leaves what the handler reads unchanged. */
  lemma ReadCreateFrame(m: map<string, Value>, k: string, v: Value)
    requires k !in {"name", "lower_bound", "upper_bound"}
    ensures ReadCreate(m[k := v]) == ReadCreate(m)
  {
  }

  /** The body's `children_count` never influences the outcome. */
  lemma ChildrenCountIgnored(st: Store, m: map<string, Value>, v: Value, now: Timestamp, writeFails: bool)
    ensures Post(st, Parsed(m["children_count" := v]), now, writeFails) == Post(st, Parsed(m), now, writeFails)
  {
    ReadCreateFrame(m, "children_count", v);
  }

  /** Two bodies that agree on `name`, `lower_bound` and `upper_bound` have the same outcome. */
  lemma OnlyThreeFieldsMatter(st: Store, m1: map<string, Value>, m2: map<string, Value>, now: Timestamp, writeFails: bool)
    requires ReadCreate(m1) == ReadCreate(m2)
    ensures Post(st, Parsed(m1), now, writeFails) == Post(st, Parsed(m2), now, writeFails)
  {
  }

  /**
   * The name is not trimmed, so a name of only spaces is accepted, and equal
   * bounds are accepted.
   */
  lemma BlankNameAndEqualBoundsAccepted(lower: real)
    ensures ValidCreate(CreateFields(Str("   "), Num(lower), Num(lower)))
    ensures AllWhitespace("   ")
  {
    Utf16LengthBmp("   ");
  }

  /**
   * Integrality of the bounds is not consulted: any ordered pair of numbers,
   * fractional or not, passes with any 1..100-character name inside the
   * Basic Multilingual Plane.
   */
  lemma FractionalBoundsAccepted(name: string, lower: real, upper: real)
    requires 1 <= |name| <= 100
    requires forall i | 0 <= i < |name| :: name[i] as int < 0x10000
    requires lower <= upper
    ensures ValidCreate(CreateFields(Str(name), Num(lower), Num(upper)))
    ensures ValidCreate(CreateFields(Str(name), Num(lower + 0.5), Num(upper + 0.5)))
  {
    Utf16LengthBmp(name);
  }

  /**
   * `length` counts UTF-16 code units: a name of at most 100 characters,
   * more than 50 of them and all outside the Basic Multilingual Plane, is
   * over 100 units long and exceeds the limit.
   */
  lemma AstralNameOverLimit(s: string, lower: real)
    requires 50 < |s| <= 100
    requires forall i | 0 <= i < |s| :: s[i] as int >= 0x10000
    ensures !ValidCreate(CreateFields(Str(s), Num(lower), Num(lower)))
  {
    Utf16LengthAstral(s);
  }

  /**
   * A created factory is listed by a following `GET`, last (it has the
   * largest id), with no children.
   */
  lemma {:induction false} PostThenGet(st: Store, body: Body, now: Timestamp)
    requires Wf(st)
    requires body.Parsed? && ValidCreate(ReadCreate(body.fields))
    ensures Post(st, body, now, false).response.status == 201
    ensures |Get(Post(st, body, now, false).store).body.factories| == |st.rows| + 1
    ensures Get(Post(st, body, now, false).store).body.factories[|st.rows|]
         == Factory(Post(st, body, now, false).response.body.factory.row, Some([]))
  {
    var next := Post(st, body, now, false).store;
    var row := next.rows[|next.rows| - 1];
    var f := ReadCreate(body.fields);
    var created := Create(st, f.name.s, f.lowerBound.n, f.upperBound.n, now);
    assert created.0 == next && created.1 == row;
    var fs := Get(next).body.factories;
    LargestIdSortsLast(RowsOf(fs), next.rows, row);
    NoChildrenForFreshId(next.children, st.rows, row.id);
  }

  /** In an ascending permutation, the row whose id exceeds all others comes last. */
  lemma LargestIdSortsLast(sorted: seq<FactoryRow>, rows: seq<FactoryRow>, row: FactoryRow)
    requires Ascending(sorted) && multiset(sorted) == multiset(rows)
    requires row in rows
    requires forall x | x in rows && x != row :: x.id < row.id
    ensures |sorted| == |rows| && sorted[|sorted| - 1] == row
  {
    assert |multiset(sorted)| == |multiset(rows)|;
    InSameMultiset(row, rows, sorted);
    var k :| 0 <= k < |sorted| && sorted[k] == row;
    var last := |sorted| - 1;
    if k < last {
      InSameMultiset(sorted[last], sorted, rows);
      assert false;
    }
  }

  /** A factory id the store has never issued owns no children. */
  lemma NoChildrenForFreshId(children: seq<Child>, rows: seq<FactoryRow>, id: nat)
    requires forall c | c in children :: c.factoryId in Ids(rows)
    requires id !in Ids(rows)
    ensures ChildrenOf(children, id) == []
  {
  }
}

=== FILE: factory_form.dfy ===
/**
 * The client-side factory form: its state, the normalisation of numeric
 * inputs, and the ordered validation chain run on submit.
 */
module FactoryForm {
  import opened Wrappers
  import opened JsString
  import opened JsNumber

  /** What a number input reports on change: the empty string, or the (finite) number it parses to. */
  datatype InputText = Blank | Numeral(value: real)

  /** The optional initial values a caller passes (edit mode). */
  datatype InitialValues = InitialValues(
    name: Option<string>,
    lowerBound: Option<real>,
    upperBound: Option<real>,
    childrenCount: Option<real>
  )

  /** The form's React state. Numbers are JavaScript numbers, which need not be integers. */
  datatype FormState = FormState(
    name: string,
    lowerBound: real,
    upperBound: real,
    childrenCount: real,
    error: Option<string>
  )

  /** What `onSubmit` receives. */
  datatype Payload = Payload(name: string, lowerBound: real, upperBound: real, childrenCount: real)

  /** The three checks of the submit chain, each named by the error it reports. */
  datatype FormError = NameRequired | InvalidBounds | InvalidChildrenCount

  /** The form state after a submit, and what was handed to `onSubmit`, if anything. */
  datatype Submission = Submission(state: FormState, emitted: Option<Payload>)

  function Message(e: FormError): string {
    match e
    case NameRequired => "Name is required."
    case InvalidBounds => "Bounds must be integers and lower bound \U{2264} upper bound."
    case InvalidChildrenCount => "Children count must be an integer between 0 and 15."
  }

  /** Each check reports its own message. */
  lemma MessagesDistinct(e1: FormError, e2: FormError)
    requires e1 != e2
    ensures Message(e1) != Message(e2)
  {
  }

  /**
   * The initial state: a missing or empty name becomes the empty string
   * (`||`), a missing number becomes 0 (`??`), and there is no error.
   * Since `||` only replaces the empty string by itself, the name is simply
   * the given one or empty.
   */
  function Init(iv: InitialValues): (st: FormState)
    ensures st.error == None
    ensures st.name == (if iv.name.Some? then iv.name.value else "")
    ensures iv.lowerBound.Some? ==> st.lowerBound == iv.lowerBound.value
    ensures iv.upperBound.Some? ==> st.upperBound == iv.upperBound.value
    ensures iv.childrenCount.Some? ==> st.childrenCount == iv.childrenCount.value
    ensures iv.lowerBound.None? ==> st.lowerBound == 0.0
    ensures iv.upperBound.None? ==> st.upperBound == 0.0
    ensures iv.childrenCount.None? ==> st.childrenCount == 0.0
  {
    FormState(
      if iv.name.Some? && iv.name.value != "" then iv.name.value else "",
      if iv.lowerBound.Some? then iv.lowerBound.value else 0.0,
      if iv.upperBound.Some? then iv.upperBound.value else 0.0,
      if iv.childrenCount.Some? then iv.childrenCount.value else 0.0,
      None)
  }

  /** The initial values an edit form is opened with for a factory in state `st`. */
  function ValuesOf(st: FormState): InitialValues {
    InitialValues(Some(st.name), Some(st.lowerBound), Some(st.upperBound), Some(st.childrenCount))
  }

  /** Opening the form with a state's own values restores that state, with no error. */
  lemma InitRestoresState(st: FormState)
    ensures Init(ValuesOf(st)) == st.(error := None)
  {
  }

  /**
   * `handleIntChange`: an empty input stores 0, anything else the floor
   * of its value, so the stored number is always an integer.
   */
  function HandleIntChange(t: InputText): (n: real)
    ensures IsInteger(n)
    ensures t.Blank? ==> n == 0.0
    ensures t.Numeral? ==> n <= t.value < n + 1.0
  {
    match t
    case Blank => 0.0
    case Numeral(v) => Floor(v)
  }

  /**
   * Typing an integer stores it unchanged, so normalising a stored value
   * again changes nothing; negative fractions round down, not toward zero.
   */
  lemma HandleIntChangeFixesIntegers(v: real)
    ensures IsInteger(v) ==> HandleIntChange(Numeral(v)) == v
    ensures HandleIntChange(Numeral(HandleIntChange(Numeral(v)))) == HandleIntChange(Numeral(v))
    ensures HandleIntChange(Numeral(-3.5)) == -4.0
  {
  }

  /** `isChildrenCountValid`: the count is one of the integers 0 through 15. */
  function ChildrenCountValid(n: real): (b: bool)
    ensures b <==> exists k: int :: 0 <= k <= 15 && n == OfInt(k)
  {
    IsIntegerIff(n);
    IsInteger(n) && n >= 0.0 && n <= 15.0
  }

  /** Whether the check named `e` passes, stated independently of the chain that runs them. */
  predicate Passes(e: FormError, st: FormState) {
    match e
    case NameRequired => !AllWhitespace(st.name)
    case InvalidBounds => IsInteger(st.lowerBound) && IsInteger(st.upperBound) && st.lowerBound <= st.upperBound
    case InvalidChildrenCount => ChildrenCountValid(st.childrenCount)
  }

  /** Position of a check in the chain. */
  function Rank(e: FormError): nat {
    match e
    case NameRequired => 0
    case InvalidBounds => 1
    case InvalidChildrenCount => 2
  }

  /**
   * The validation chain of `handleSubmit`. It fails with the FIRST check
   * that does not pass, and succeeds exactly when all pass, with the name
   * trimmed and the numbers as they are. The 0..1,000,000 range the inputs
   * advertise is not enforced.
   */
  function Validate(st: FormState): (r: Result<Payload, FormError>)
    ensures r.Success? <==> forall e: FormError :: Passes(e, st)
    ensures r.Failure? ==> !Passes(r.error, st)
    ensures r.Failure? ==> forall e: FormError | Rank(e) < Rank(r.error) :: Passes(e, st)
    ensures r.Success? ==> r.value == Payload(Trim(st.name), st.lowerBound, st.upperBound, st.childrenCount)
  {
    if Trim(st.name) == "" then
      assert !Passes(NameRequired, st);
      Failure(NameRequired)
    else if !IsInteger(st.lowerBound) || !IsInteger(st.upperBound) || st.lowerBound > st.upperBound then
      assert !Passes(InvalidBounds, st);
      Failure(InvalidBounds)
    else if !ChildrenCountValid(st.childrenCount) then
      assert !Passes(InvalidChildrenCount, st);
      Failure(InvalidChildrenCount)
    else
      AllChecksPass(st);
      Success(Payload(Trim(st.name), st.lowerBound, st.upperBound, st.childrenCount))
  }

  lemma AllChecksPass(st: FormState)
    requires Passes(NameRequired, st) && Passes(InvalidBounds, st) && Passes(InvalidChildrenCount, st)
    ensures forall e: FormError :: Passes(e, st)
  {
    forall e: FormError ensures Passes(e, st) {
      match e
      case NameRequired =>
      case InvalidBounds =>
      case InvalidChildrenCount =>
    }
  }

  /** What a successful submit hands over: a trimmed non-empty name, ordered integer bounds, a count in 0..15. */
  predicate WellFormedPayload(p: Payload) {
    && p.name != ""
    && !IsWhitespace(p.name[0]) && !IsWhitespace(p.name[|p.name| - 1])
    && IsInteger(p.lowerBound) && IsInteger(p.upperBound) && p.lowerBound <= p.upperBound
    && ChildrenCountValid(p.childrenCount)
  }

  lemma ValidatedPayloadWellFormed(st: FormState)
    requires Validate(st).Success?
    ensures WellFormedPayload(Validate(st).value)
  {
  }

  /**
   * `handleSubmit`: the error is cleared first, then set to the message of
   * the first failing check; only if none fails is `onSubmit` (when given)
   * called. Nothing else in the state changes: the stored name stays untrimmed.
   */
  function HandleSubmit(st: FormState, hasOnSubmit: bool): (r: Submission)
    ensures r.state == st.(error := r.state.error)
    ensures r.state.error.None? <==> Validate(st).Success?
    ensures r.state.error.Some? ==> r.state.error.value == Message(Validate(st).error)
    ensures r.emitted.Some? <==> hasOnSubmit && Validate(st).Success?
    ensures r.emitted.Some? ==> r.emitted.value == Validate(st).value
    ensures hasOnSubmit ==> (r.state.error.Some? <==> r.emitted.None?)
  {
    var cleared := st.(error := None);
    match Validate(st)
    case Failure(e) => Submission(cleared.(error := Some(Message(e))), None)
    case Success(p) => Submission(cleared, if hasOnSubmit then Some(p) else None)
  }

  /** An error left over from an earlier submit has no influence on the next one. */
  lemma PreviousErrorIrrelevant(st: FormState, old1: Option<string>, old2: Option<string>, hasOnSubmit: bool)
    ensures HandleSubmit(st.(error := old1), hasOnSubmit) == HandleSubmit(st.(error := old2), hasOnSubmit)
  {
    assert Validate(st.(error := old1)) == Validate(st.(error := old2));
  }

  /** A fresh form with no initial values is refused for its empty name. */
  lemma EmptyFormNeedsName()
    ensures Validate(Init(InitialValues(None, None, None, None))) == Failure(NameRequired)
  {
  }

  /**
   * No range is imposed on the bounds: whatever ordered integers replace
   * them (-5 and 2,000,000 as readily as 0 and 10), a form whose name and
   * count pass is accepted.
   */
  lemma RangeNotEnforced(st: FormState, lower: int, upper: int)
    requires !AllWhitespace(st.name)
    requires ChildrenCountValid(st.childrenCount)
    requires lower <= upper
    ensures Validate(st.(lowerBound := lower as real, upperBound := upper as real)).Success?
  {
    var st' := st.(lowerBound := lower as real, upperBound := upper as real);
    assert IsInteger(lower as real) && IsInteger(upper as real);
    assert Passes(NameRequired, st') && Passes(InvalidBounds, st') && Passes(InvalidChildrenCount, st');
    AllChecksPass(st');
  }
}

=== FILE: factory_store.dfy ===
/**
 * The relational store as the factory endpoints see it. Only the two
 * queries the collection endpoint issues are modelled: inserting one
 * factory row, and listing every row with its children ordered by id.
 */
module FactoryStore {
  import opened Wrappers
  import opened FactoryTypes

  /**
   * Factory rows in insertion order, child rows, the next value of the
   * factory id sequence, and the default the schema gives `children_count`
   * when an insert does not set it.
   */
  datatype Store = Store(
    rows: seq<FactoryRow>,
    children: seq<Child>,
    nextId: nat,
    defaultChildrenCount: real
  )

  function Ids(rows: seq<FactoryRow>): set<nat> {
    set r | r in rows :: r.id
  }

  predicate DistinctIds(rows: seq<FactoryRow>) {
    forall i, j | 0 <= i < j < |rows| :: rows[i].id != rows[j].id
  }

  /**
   * What the database guarantees: ids are a primary key drawn from a
   * sequence that has not reached `nextId` yet, and every child references
   * an existing factory.
   */
  predicate Wf(st: Store) {
    && DistinctIds(st.rows)
    && (forall r | r in st.rows :: r.id < st.nextId)
    && (forall c | c in st.children :: c.factoryId in Ids(st.rows))
  }

  /**
   * `factory.create` with the three columns the handler supplies: the new
   * row takes the next id, the column default for `children_count` and the
   * current time for both timestamps; no child is created.
   */
  function Create(st: Store, name: string, lowerBound: real, upperBound: real, now: Timestamp)
    : (r: (Store, FactoryRow))
    ensures r.0.rows == st.rows + [r.1] && r.0.children == st.children
    ensures r.1.name == name && r.1.lowerBound == lowerBound && r.1.upperBound == upperBound
    ensures r.1.childrenCount == st.defaultChildrenCount && r.1.createdAt == now && r.1.updatedAt == now
    ensures r.0.defaultChildrenCount == st.defaultChildrenCount && r.0.nextId > r.1.id
    ensures Wf(st) ==> r.1.id !in Ids(st.rows) && Wf(r.0)
    ensures Wf(st) ==> forall f | f in r.0.rows && f != r.1 :: f.id < r.1.id
  {
    var row := FactoryRow(st.nextId, name, lowerBound, upperBound, st.defaultChildrenCount, now, now);
    (st.(rows := st.rows + [row], nextId := st.nextId + 1), row)
  }

  predicate Ascending(rows: seq<FactoryRow>) {
    forall i, j | 0 <= i < j < |rows| :: rows[i].id < rows[j].id
  }

  /** Places `r` among rows already in ascending id order. */
  function InsertById(r: FactoryRow, rows: seq<FactoryRow>): (s: seq<FactoryRow>)
    ensures multiset(s) == multiset(rows) + multiset{r}
  {
    if |rows| == 0 then [r]
    else if r.id < rows[0].id then
      assert rows == [rows[0]] + rows[1..];
      [r] + rows
    else
      assert rows == [rows[0]] + rows[1..];
      [rows[0]] + InsertById(r, rows[1..])
  }

  /** Rows reordered by ascending id (`orderBy: { id: 'asc' }`), by insertion sort. */
  function SortById(rows: seq<FactoryRow>): (s: seq<FactoryRow>)
    ensures multiset(s) == multiset(rows)
  {
    if |rows| == 0 then []
    else
      assert rows == [rows[0]] + rows[1..];
      InsertById(rows[0], SortById(rows[1..]))
  }

  lemma InSameMultiset<T>(x: T, a: seq<T>, b: seq<T>)
    requires multiset(a) == multiset(b) && x in a
    ensures x in b
  {
    assert x in multiset(a);
  }

  /** Inserting a fresh id into an ascending sequence keeps it ascending. */
  lemma {:induction false} InsertByIdAscending(r: FactoryRow, rows: seq<FactoryRow>)
    requires Ascending(rows) && r.id !in Ids(rows)
    ensures Ascending(InsertById(r, rows))
  {
    if |rows| > 0 && r.id >= rows[0].id {
      var tail := rows[1..];
      AscendingSplit(rows);
      assert r.id !in Ids(tail) && rows[0].id < r.id by {
        assert Ids(tail) <= Ids(rows) && rows[0] in rows;
      }
      InsertByIdAscending(r, tail);
      InsertByIdAbove(r, tail, rows[0].id);
      ConsAscending(rows[0], InsertById(r, tail));
    }
  }

  /** An ascending sequence is its smallest id followed by an ascending tail above it. */
  lemma AscendingSplit(rows: seq<FactoryRow>)
    requires Ascending(rows) && |rows| > 0
    ensures Ascending(rows[1..])
    ensures forall x | x in rows[1..] :: rows[0].id < x.id
  {
    var tail := rows[1..];
    forall x | x in tail ensures rows[0].id < x.id {
      var k :| 0 <= k < |tail| && tail[k] == x;
      assert rows[k + 1] == x;
    }
  }

  /** Inserting keeps every id above a common lower bound. */
  lemma InsertByIdAbove(r: FactoryRow, rows: seq<FactoryRow>, b: nat)
    requires b < r.id
    requires forall x | x in rows :: b < x.id
    ensures forall x | x in InsertById(r, rows) :: b < x.id
  {
    var s := InsertById(r, rows);
    forall x | x in s ensures b < x.id {
      assert x in multiset(s);
    }
  }

  lemma ConsAscending(h: FactoryRow, rest: seq<FactoryRow>)
    requires Ascending(rest)
    requires forall x | x in rest :: h.id < x.id
    ensures Ascending([h] + rest)
  {
    var s := [h] + rest;
    forall i, j | 0 <= i < j < |s| ensures s[i].id < s[j].id {
      assert s[j] == rest[j - 1];
      if i > 0 {
        assert s[i] == rest[i - 1];
      }
    }
  }

  /** With distinct ids, sorting yields strictly ascending ids. */
  lemma {:induction false} SortByIdAscending(rows: seq<FactoryRow>)
    requires DistinctIds(rows)
    ensures Ascending(SortById(rows))
  {
    if |rows| > 0 {
      var tail := rows[1..];
      assert DistinctIds(tail) by {
        forall i, j | 0 <= i < j < |tail| ensures tail[i].id != tail[j].id {
          assert tail[i] == rows[i + 1] && tail[j] == rows[j + 1];
        }
      }
      SortByIdAscending(tail);
      var sorted := SortById(tail);
      assert rows[0].id !in Ids(sorted) by {
        forall x | x in sorted ensures x.id != rows[0].id {
          InSameMultiset(x, sorted, tail);
          var k :| 0 <= k < |tail| && tail[k] == x;
          assert rows[k + 1] == x;
        }
      }
      InsertByIdAscending(rows[0], sorted);
    }
  }

  /** The children whose foreign key is `id`, in store order (`include: { children: true }`). */
  function ChildrenOf(children: seq<Child>, id: nat): (cs: seq<Child>)
    ensures forall c :: c in cs <==> c in children && c.factoryId == id
    ensures forall c {:trigger multiset(cs)[c]} :: multiset(cs)[c] == (if c.factoryId == id then multiset(children)[c] else 0)
  {
    if |children| == 0 then []
    else
      assert children == [children[0]] + children[1..];
      (if children[0].factoryId == id then [children[0]] else []) + ChildrenOf(children[1..], id)
  }
}

=== FILE: factory_types.dfy ===
/**
 * The records a factory endpoint reads and returns: a factory row with its
 * scalar columns and, when the store is asked to include them, its children.
 * JSON numbers are `real`; identifiers come from an autoincrement column and
 * are `nat`; timestamps are abstract instants supplied by the caller.
 */
module FactoryTypes {
  import opened Wrappers

  type Timestamp = int

  /** One generated value owned by the factory `factoryId`. */
  datatype Child = Child(id: nat, value: real, createdAt: Timestamp, factoryId: nat)

  /** The scalar columns of a stored factory. */
  datatype FactoryRow = FactoryRow(
    id: nat,
    name: string,
    lowerBound: real,
    upperBound: real,
    childrenCount: real,
    createdAt: Timestamp,
    updatedAt: Timestamp
  )

  /** A factory as serialised in a response; `children` is absent unless the query included them. */
  datatype Factory = Factory(row: FactoryRow, children: Option<seq<Child>>)

  /** The scalar rows of a list of factories, in the same order. */
  function RowsOf(fs: seq<Factory>): seq<FactoryRow> {
    seq(|fs|, i requires 0 <= i < |fs| => fs[i].row)
  }
}

=== FILE: jsnumber.dfy ===
/**
 * JavaScript numbers as they reach the validators. Every value is assumed
 * finite (an overflowing literal such as `1e400` would parse to `Infinity`,
 * which is not modelled); it is an exact `real` (IEEE rounding is not
 * modelled).
 */
module JsNumber {

  /** `Number.isInteger` on a finite number. */
  predicate IsInteger(x: real) {
    x.Floor as real == x
  }

  /** `Math.floor` on a finite number, as the number it yields. */
  function Floor(x: real): (r: real)
    ensures IsInteger(r)
    ensures r <= x < r + 1.0
  {
    x.Floor as real
  }

  /** The JavaScript number that denotes the mathematical integer `k`. */
  function OfInt(k: int): real {
    k as real
  }

  /** A number is an integer exactly when some mathematical integer denotes it. */
  lemma IsIntegerIff(x: real)
    ensures IsInteger(x) <==> exists k: int :: x == OfInt(k)
  {
    if IsInteger(x) {
      assert x == OfInt(x.Floor);
    }
  }
}

=== FILE: jsstring.dfy ===
/**
 * The two JavaScript string operations the factory validators rely on:
 * `String.prototype.trim` and the `length` property.
 *
 * A Dafny `char` is a Unicode scalar value, while a JavaScript string is a
 * sequence of UTF-16 code units; `Utf16Length` bridges the two.
 */
module JsString {

  /**
   * The code points `trim` strips: the ECMAScript WhiteSpace set (tab,
   * vertical tab, form feed, space, no-break space, byte order mark and the
   * Unicode space separators) and the LineTerminator set (LF, CR, LS, PS).
   */
  const WhitespaceCodePoints: set<int> := {
    0x09, 0x0A, 0x0B, 0x0C, 0x0D, 0x20, 0xA0, 0x1680,
    0x2000, 0x2001, 0x2002, 0x2003, 0x2004, 0x2005, 0x2006, 0x2007, 0x2008, 0x2009, 0x200A,
    0x2028, 0x2029, 0x202F, 0x205F, 0x3000, 0xFEFF
  }

  predicate IsWhitespace(c: char) {
    c as int in WhitespaceCodePoints
  }

  predicate AllWhitespace(s: string) {
    forall i | 0 <= i < |s| :: IsWhitespace(s[i])
  }

  /** The first index at or after `i` that does not hold whitespace (`|s|` if none). */
  function StartFrom(s: string, i: nat): (k: nat)
    requires i <= |s|
    ensures i <= k <= |s|
    ensures forall m | i <= m < k :: IsWhitespace(s[m])
    ensures k < |s| ==> !IsWhitespace(s[k])
    decreases |s| - i
  {
    if i < |s| && IsWhitespace(s[i]) then StartFrom(s, i + 1) else i
  }

  /** Scanning back from `j` but not past `lo`: one past the last non-whitespace index (`lo` if none). */
  function EndFrom(s: string, lo: nat, j: nat): (k: nat)
    requires lo <= j <= |s|
    ensures lo <= k <= j
    ensures forall m | k <= m < j :: IsWhitespace(s[m])
    ensures k > lo ==> !IsWhitespace(s[k - 1])
  {
    if j > lo && IsWhitespace(s[j - 1]) then EndFrom(s, lo, j - 1) else j
  }

  /**
   * `String.prototype.trim`: the slice between the leading and the
   * trailing whitespace. It empties exactly when the string held only
   * whitespace, and otherwise starts and ends with a non-whitespace character.
   */
  function Trim(s: string): (r: string)
    ensures |r| <= |s|
    ensures r == [] <==> AllWhitespace(s)
    ensures r != [] ==> !IsWhitespace(r[0]) && !IsWhitespace(r[|r| - 1])
  {
    var lo := StartFrom(s, 0);
    var hi := EndFrom(s, lo, |s|);
    s[lo..hi]
  }

  /**
   * The scan a JavaScript engine performs for `trim`: the trimmed string is
   * the slice `s[lo..hi]`, and everything cut off on either side is whitespace.
   */
  method TrimRange(s: string) returns (lo: nat, hi: nat)
    ensures lo <= hi <= |s|
    ensures s[lo..hi] == Trim(s)
    ensures AllWhitespace(s[..lo]) && AllWhitespace(s[hi..])
  {
    lo := 0;
    while lo < |s| && IsWhitespace(s[lo])
      invariant lo <= |s|
      invariant StartFrom(s, lo) == StartFrom(s, 0)
    {
      lo := lo + 1;
    }
    hi := |s|;
    while hi > lo && IsWhitespace(s[hi - 1])
      invariant lo <= hi <= |s|
      invariant EndFrom(s, lo, hi) == EndFrom(s, lo, |s|)
    {
      hi := hi - 1;
    }
    assert forall m | 0 <= m < |s[..lo]| :: s[..lo][m] == s[m];
    assert forall m | 0 <= m < |s[hi..]| :: s[hi..][m] == s[hi + m];
  }

  /** Trimming an already trimmed string changes nothing. */
  lemma TrimIdempotent(s: string)
    ensures Trim(Trim(s)) == Trim(s)
  {
    var r := Trim(s);
    if r != [] {
      assert StartFrom(r, 0) == 0;
      assert EndFrom(r, 0, |r|) == |r|;
    }
  }

  /** `length` of a JavaScript string: code points above the Basic Multilingual Plane take two code units. */
  function Utf16Length(s: string): (n: nat)
    ensures |s| <= n <= 2 * |s|
  {
    if |s| == 0 then 0
    else (if s[0] as int >= 0x10000 then 2 else 1) + Utf16Length(s[1..])
  }

  /** For text inside the Basic Multilingual Plane the JavaScript length is the character count. */
  lemma {:induction false} Utf16LengthBmp(s: string)
    requires forall i | 0 <= i < |s| :: s[i] as int < 0x10000
    ensures Utf16Length(s) == |s|
  {
    if |s| > 0 {
      assert forall i | 0 <= i < |s[1..]| :: s[1..][i] == s[i + 1];
      Utf16LengthBmp(s[1..]);
    }
  }

  /** Outside the Basic Multilingual Plane every character is a surrogate pair. */
  lemma {:induction false} Utf16LengthAstral(s: string)
    requires forall i | 0 <= i < |s| :: s[i] as int >= 0x10000
    ensures Utf16Length(s) == 2 * |s|
  {
    if |s| > 0 {
      assert forall i | 0 <= i < |s[1..]| :: s[1..][i] == s[i + 1];
      Utf16LengthAstral(s[1..]);
    }
  }
}

=== FILE: new_factory_flow.dfy ===
/**
 * The new-factory page posts the form's payload, serialised with
 * `JSON.stringify`, to the collection endpoint. This module relates the
 * client-side checks to the server-side ones.
 */
module NewFactoryFlow {
  import opened JsString
  import opened FactoryTypes
  import opened FactoryStore
  import opened FactoryForm
  import opened FactoriesRoute

  /** The body the endpoint parses from `JSON.stringify(payload)`; finite numbers survive the round trip. */
  function Encode(p: Payload): map<string, Value> {
    map[
      "name" := Str(p.name),
      "lower_bound" := Num(p.lowerBound),
      "upper_bound" := Num(p.upperBound),
      "children_count" := Num(p.childrenCount)
    ]
  }

  /**
   * A payload the form lets through passes the endpoint's check exactly
   * when its trimmed name is at most 100 UTF-16 code units long: the form
   * has no length limit, the endpoint no trimming.
   */
  lemma FormPayloadAccepted(fs: FormState)
    requires Validate(fs).Success?
    ensures ValidCreate(ReadCreate(Encode(Validate(fs).value))) <==> Utf16Length(Trim(fs.name)) <= 100
  {
    var p := Validate(fs).value;
    assert ReadCreate(Encode(p)) == CreateFields(Str(p.name), Num(p.lowerBound), Num(p.upperBound));
  }

  /** Creating through the form and the endpoint stores the trimmed name and the bounds as typed. */
  lemma FormThenPost(fs: FormState, st: Store, now: Timestamp)
    requires Validate(fs).Success? && Utf16Length(Trim(fs.name)) <= 100
    ensures
      var r := Post(st, Parsed(Encode(Validate(fs).value)), now, false);
      && r.response.status == 201
      && |r.store.rows| == |st.rows| + 1
      && r.store.rows[|st.rows|].name == Trim(fs.name)
      && r.store.rows[|st.rows|].lowerBound == fs.lowerBound
      && r.store.rows[|st.rows|].upperBound == fs.upperBound
  {
    FormPayloadAccepted(fs);
  }

  /** A name of only spaces is refused by the form, yet the endpoint on its own accepts it. */
  lemma BlankNameOnlyCaughtByForm(n: real)
    requires JsNumber.IsInteger(n)
    ensures Validate(FormState("   ", n, n, 0.0, Wrappers.None)) == Wrappers.Failure(NameRequired)
    ensures ValidCreate(CreateFields(Str("   "), Num(n), Num(n)))
  {
    BlankNameAndEqualBoundsAccepted(n);
  }
}

=== FILE: wrappers.dfy ===
/** Optional values and success-or-error results shared by the other modules. */
module Wrappers {

  /** A value that may be absent, like a TypeScript optional property. */
  datatype Option<+T> = None | Some(value: T)

  /** The outcome of a check: the validated value, or the reason it was refused. */
  datatype Result<+R, +E> = Success(value: R) | Failure(error: E)
}
